=== FILE: README.md ===
# Keyboard navigation engine: a Dafny model

`initKeyboardNav` lets a keyboard user jump through the page:

- **H** jumps between headers, **L** between links, **M** between landmarks.
- **ArrowUp** and **ArrowDown** choose the direction of travel.
- The function returns a `teardown` that removes everything it installed.

This project models the engine inside that closure as pure functions over an abstract document and proves properties about it:

- **Scanner** (`dom.dfy`, `scanner.dfy`). A document is its sequence of elements in document order. Each element is an identity, a tag name and an optional `role`. `scanElements` is three filters over it: headers, links and landmarks.
- **Index arithmetic** (`wrap.dfy`).
  - JavaScript's truncating `%` is modelled as written (`JsRem`), next to the wrap-around step of `movePointer`.
  - The model proves that the truncating `%` agrees with Dafny's Euclidean `%` for every index the engine can hold.
- **Focus controller** (`highlight.dfy`). `makeFocusable`, `clearHighlight` and `focusElement` work on the following state:
  - `prevEl`;
  - the set of nodes this engine has marked with the highlight class;
  - the `tabindex` attributes;
  - the focused node.
- **Debounce** (`debounce.dfy`). The one-slot timer of `debounce`, driven by explicit call and expiry events. It is leading-edge only: expiry just empties the slot.
- **Navigator** (`navigator.dfy`). The closure's variables and its handlers as transitions of a `World`. A `World` is the document, the controller and the engine. The transitions are:
  - `onKeyDown`, `handleNavKey`, `movePointer` and `getList`;
  - the mutation observer's debounced rescan;
  - timer expiry;
  - focus moved by the user;
  - `teardown`.
- **Properties** (`navprops.dfy`):
  - where a category key lands;
  - cycling through a list;
  - reversal;
  - the text-entry guard;
  - the stale cache;
  - teardown;
  - the single-highlight invariant over every run.

## Model

| member | source | states |
|---|---|---|
| Dom.Lookup | navigationAZ.js:69-70 | A found node is in the document and has the requested identity. Not found means no node of the document has that identity. |
| Dom.LookupAttached | navigationAZ.js:69-70 | In a document holding each node once, looking up an attached node by its identity yields that very node. |
| Dom.LookupMember | navigationAZ.js:69-70 | Membership form: any element of a well-formed document is found by its identity. |
| Dom.ActiveTag | navigationAZ.js:69-70 | The active element's tag is `BODY` when nothing is focused or the focused node is no longer in the document. Otherwise it is the tag of the focused node. |
| Dom.KeepFocus | navigationAZ.js:69-70 | After a document change, focus stays on a node still in the document and otherwise returns to the body. Either way the active element's tag is the same as before the reset. |
| Dom.IsTextEntry | navigationAZ.js:70 | The guard's test: a tag is text entry exactly when it is INPUT, TEXTAREA or SELECT. |
| Dom.ToUpper | navigationAZ.js:98 | Upper-casing keeps the key's length and upper-cases each character on its own. |
| Dom.UpperInverse | navigationAZ.js:98 | Exactly two characters upper-case to a given capital letter: the letter itself and its lower-case partner. |
| Scanner.IsHeader | navigationAZ.js:30 | Defines a header: a tag H1 to H6. |
| Scanner.IsLink | navigationAZ.js:31 | Defines a link: an A tag, with or without `href`. |
| Scanner.IsLandmark | navigationAZ.js:32-37 | Defines a landmark: one of the seven landmark tags, or one of the six landmark roles. |
| Scanner.Matches | navigationAZ.js:29-37 | Sends each category to its selector: H to headers, L to links, M to landmarks. |
| Scanner.Filter | navigationAZ.js:29-38 | A category's list is never longer than the document. |
| Scanner.FilterElements | navigationAZ.js:29-38 | Every listed element is an element of the document and belongs to the category. |
| Scanner.Positions | navigationAZ.js:29-38 | Reference selection. The positions are in range, belong to the category and strictly increase, and every position in the category is included. |
| Scanner.FilterIsDocumentOrderSelection | navigationAZ.js:29-38 | Each list has one entry per selected position. Its i-th entry is the element at the i-th selected position, so the list is exactly the document-order subsequence of matching elements. |
| Scanner.FilterMembership | navigationAZ.js:29-38 | An element is listed if and only if it is in the document and in the category. |
| Scanner.FilterDistinct | navigationAZ.js:32-37 | A well-formed document gives lists without repeated nodes. An element that is a landmark both by tag and by role is listed once. |
| Scanner.Scan | navigationAZ.js:29-38 | One scan produces, for every category, that category's filter of the document. |
| Scanner.GetList | navigationAZ.js:86-94 | Returns the cached list of the requested category, and the empty list for an unknown type. |
| Scanner.GetListOfScan | navigationAZ.js:86-94 | After a scan, `getList` returns exactly the document's elements of the requested category. It returns nothing for an unknown type. |
| Scanner.HeadersAndLinksAreNotTextEntry | navigationAZ.js:30-31 | No header or link is an INPUT, TEXTAREA or SELECT. |
| Scanner.TextEntryLandmarkExists | navigationAZ.js:32-37 | Some document has a text-entry control in its landmark list: an INPUT whose role is a landmark role. |
| Wrap.JsRem | navigationAZ.js:64 | JavaScript `%` with a positive divisor. The remainder has the dividend's sign and is smaller in magnitude than the divisor. |
| Wrap.JsRemMatchesEuclid | navigationAZ.js:64 | On a non-negative dividend, JavaScript's `%` equals Dafny's `%`. |
| Wrap.JsRemOdd | navigationAZ.js:64 | Truncation is symmetric: negating the dividend negates the remainder. |
| Wrap.MoveIndex | navigationAZ.js:64 | `(i + d + len) % len` from any index of at least -1 lies in `[0, len)`. Inside the list it is `i + d`. Past the end it wraps to 0. Backward from 0 it wraps to `len - 1`. |
| Wrap.MoveIndexIsEuclidean | navigationAZ.js:64 | The dividend is negative only for a one-element list with index -1 and a backward step. For every index of at least -1, JavaScript's and Dafny's results agree. |
| Wrap.TruncationDiffersBelowSentinel | navigationAZ.js:64 | One example that the agreement needs the bound -1: from index -4, a backward step in a two-element list gives -1 in JavaScript against 1 in Dafny. |
| Wrap.BackwardFromForwardSentinel | navigationAZ.js:76-80 | A backward step from the forward sentinel -1 lands on `len - 2` (on 0 for a single element), not on the last element. |
| Highlight.SingleHighlightAtMostOne | navigationAZ.js:46-60 | Under the invariant, at most one node is highlighted, and it is `prevEl`. |
| Highlight.MakeFocusable | navigationAZ.js:40-44 | The node gets a `tabindex` of "-1" only if it had none. An existing value is kept. No other node's attribute changes, and no attribute disappears. |
| Highlight.MakeFocusableIdempotent | navigationAZ.js:40-44 | Making a node focusable twice equals doing it once. |
| Highlight.ClearHighlight | navigationAZ.js:46-51 | `prevEl` is forgotten. Focus and attributes are untouched. No node gains the highlight, and under the invariant none keeps it. |
| Highlight.FocusElement | navigationAZ.js:53-60 | The target becomes focused and becomes `prevEl`. It is made focusable, and under the invariant it is the only highlighted node. |
| Debounce.OnCall | navigationAZ.js:130-139 | A call runs the wrapped function if and only if no timer is pending. A timer is pending afterwards. |
| Debounce.OnExpire | navigationAZ.js:136-138 | Expiry never runs the wrapped function and leaves no timer pending. |
| Debounce.After | navigationAZ.js:128-140 | The debouncer after a sequence of call and expiry events, handled in order. `Debounce.PendingAfter` states what it holds. |
| Debounce.Runs | navigationAZ.js:128-140 | Records, for each event of a sequence, whether it ran the wrapped function: one entry per event. |
| Debounce.PendingAfter | navigationAZ.js:128-140 | After a sequence of events, a timer is pending exactly when the last event was a call, or, with no events, when one was pending before. |
| Debounce.RunsExactlyOnLeadingEdge | navigationAZ.js:128-140 | The i-th event runs the wrapped function if and only if it is a call and the event before it was an expiry. For the first event, the condition is that no timer was pending at the start. |
| Debounce.BurstRunsOnce | navigationAZ.js:128-140 | A burst of calls runs the function at most once, at its start, and only when no timer was pending. |
| Navigator.Direction.Step | navigationAZ.js:15 | The numeric `direction`: always 1 or -1, 1 going forward (lines 15, 104) and -1 going backward (line 100), added to the index at line 64. |
| Navigator.Valid | navigationAZ.js:46-80 | The invariant the other rows refer to: the index is at least the forward sentinel -1, the only highlighted node is `prevEl`, and after teardown `prevEl` is empty. |
| Navigator.Init | navigationAZ.js:10-17 | The initial world satisfies the invariant. It holds one scan of the document, no category, index 0, forward direction, no pending timer, attached listeners and no highlight. It keeps the focused node when that node is in the document; otherwise focus is on the body. |
| Navigator.Active | navigationAZ.js:69-70 | The tag of `document.activeElement` in a world: the focused node's tag, or `BODY`. |
| Navigator.DecodeKey | navigationAZ.js:98-109 | Upper-cases the key, then maps ARROWUP, ARROWDOWN, H, L and M to their actions and every other key to no action. |
| Navigator.DecodeCategoryKey | navigationAZ.js:97-110 | A key selects category c if and only if it is c's letter in upper or lower case. |
| Navigator.MovePointer | navigationAZ.js:62-66 | On an empty list nothing changes. Otherwise the index moves by `MoveIndex` into `[0, len)`, exactly the element there is focused, and nothing else in the engine changes. |
| Navigator.StartIndex | navigationAZ.js:76-79 | On a category switch the index resets to the sentinel: exactly -1 going forward and exactly `len` going backward. On the current category the index is kept. |
| Navigator.HandleNavKey | navigationAZ.js:68-81 | With a text-entry control focused, nothing changes. Otherwise the lists are a fresh scan and the category is the pressed one. The invariant holds, and direction, timer and document are untouched. |
| Navigator.OnKeyDown | navigationAZ.js:97-110 | ArrowUp sets the direction backward and ArrowDown sets it forward, and nothing else changes. Any other non-category key changes nothing. The invariant holds. |
| Navigator.OnMutation | navigationAZ.js:113-114 | The rescan happens only when no timer is pending, and a timer is pending afterwards. The pointer, category, direction, focus and highlight never change. |
| Navigator.Teardown | navigationAZ.js:120-125 | The listeners are detached and no node is highlighted. The document, focus, attributes, category, index, direction, timer and cached lists are all kept. |
| Navigator.Step | navigationAZ.js:97-125 | Every event preserves the invariant. A document change installs the new document, and one that removes the focused node returns focus to the body. Moving focus to a node that is not in the document changes nothing; any other focus move sets exactly the focused node. After teardown a key press changes nothing, and nothing becomes highlighted again. |
| Navigator.Run | navigationAZ.js:97-125 | Every run of events preserves the invariant. |
| NavProps.CategoryKeyLands | navigationAZ.js:62-81 | When unguarded, a category key selects the category. On an empty list the focus is unchanged and the index stays at the sentinel. Otherwise the index is `MoveIndex` of the start index, and exactly that element is focused, highlighted and made focusable. |
| NavProps.SwitchLandsOnFirstInTravelDirection | navigationAZ.js:76-80 | On a switch, forward lands on index 0 and backward on `len - 1`. |
| NavProps.SameCategoryStepsCircularly | navigationAZ.js:62-65 | Repeating the current category moves one step, circularly both ways: last wraps to first going forward, first wraps to last going backward. |
| NavProps.TextEntryBlocksCategoryKeys | navigationAZ.js:68-72 | While a text-entry control has focus, a category key leaves the whole world unchanged. |
| NavProps.FocusedInputKeepsFocus | __tests__/keyboardNav.test.js:59-65 | After the user focuses an attached input, a category key changes nothing and the input keeps focus. |
| NavProps.Press | navigationAZ.js:107-109 | Repeated presses keep the invariant, the document and the listeners. |
| NavProps.PressIsKeyDown | navigationAZ.js:107-109 | Each modelled press is the key event of the category's letter. |
| NavProps.LetterKeys | navigationAZ.js:107-109 | A stream of `n` key-down events, each the category's letter. |
| NavProps.PressIsRun | navigationAZ.js:97-110 | `n` modelled presses are the run of `n` key-down events of the category's letter. |
| NavProps.GuardOpenOnList | navigationAZ.js:68-72 | When a list has no text-entry control, the guard is open wherever the pointer rests on it. |
| NavProps.FirstForwardPress | navigationAZ.js:76-80 | The first forward press after a switch rests on element 0. |
| NavProps.NextForwardPress | navigationAZ.js:62-65 | From a resting element, a forward press rests on the next one, or on the first after the last. |
| NavProps.CycleFrom | navigationAZ.js:62-65 | From element i, m more forward presses rest on element i + m, or on the first once the end is passed. |
| NavProps.PressAfterSwitch | navigationAZ.js:62-80 | The k-th press after a forward switch rests on the k-th element. Press len + 1 rests on the first. |
| NavProps.CycleVisitsEachOnceInOrder | __tests__/keyboardNav.test.js:45-57 | From a forward switch, press k focuses the k-th element in document order. Distinct presses focus distinct nodes, and press len + 1 returns to index 0. |
| NavProps.FirstPressFocusesFirst | __tests__/keyboardNav.test.js:67-77 | After initialisation, the first H, L or M focuses and solely highlights the first element of that category. |
| NavProps.AppendedHeaderIsReachedLast | __tests__/keyboardNav.test.js:45-57 | After a header is appended, pressing H once per header ends on the new header. |
| NavProps.HeaderAndLinkCycles | navigationAZ.js:30-31 | The cycle holds for headers and links on every well-formed document. |
| NavProps.ReversalStepsBack | navigationAZ.js:97-106 | From index i of the freshly scanned list of the current category, ArrowUp followed by the category's key moves to index i - 1, wrapping from first to last, and focuses and solely highlights that element. |
| NavProps.EmptyBackwardSwitchSkipsFirst | navigationAZ.js:62-80 | A backward switch onto an empty category parks the index at 0. Once two or more elements appear, ArrowDown and the key land on index 1, skipping element 0. |
| NavProps.HeaderScenario | __tests__/keyboardNav.test.js:34-43 | H, H, ArrowUp, H on a page with two or more headers focuses the first, then the second, then the first header again. |
| NavProps.HeaderKeyIsPress | navigationAZ.js:98-107 | The key "H" is a press of the headers key. |
| NavProps.HeaderScenarioReversal | __tests__/keyboardNav.test.js:40-42 | From the second header, ArrowUp then H focuses and solely highlights the first header. |
| NavProps.NavigationIgnoresCachedLists | navigationAZ.js:74 | Worlds that differ only in the cached lists react to every key alike, and identically to an unguarded category key. |
| NavProps.MutationNeverMovesPointer | navigationAZ.js:113-114 | A mutation batch refreshes the cache, and only on the leading edge. Pointer, category, direction and highlight are untouched. Focus is kept unless the batch removed the focused node. |
| NavProps.BurstLeavesCacheStaleButNavigationFresh | navigationAZ.js:128-140 | A second batch inside the debounce window is not rescanned, yet the next category key navigates the current document. |
| NavProps.TeardownIsFinal | navigationAZ.js:120-125 | After teardown nothing is highlighted, and after any further events the listeners stay detached and nothing is highlighted. |
| NavProps.KeysAfterTeardownAreInert | navigationAZ.js:120-121 | After teardown, any sequence of key presses changes nothing. |
| NavProps.AlwaysAtMostOneHighlight | navigationAZ.js:46-60 | In every run from initialisation, at most one node is highlighted, it is `prevEl`, and the index is at least -1. |

## Notes on behaviour

- **Backward step from the forward sentinel.** Take a category whose list was empty when it was selected going forward. The index stays at -1. Suppose elements then appear, and the user presses ArrowUp and the key again. The category is unchanged, so there is no reset, and the step from -1 lands on `len - 2`, not the last element (`Wrap.BackwardFromForwardSentinel`). This is what the code does. The model keeps it.
- **Landmark text-entry trap.** A text-entry control with a landmark `role` (say `<input role="navigation">`) is in the M list (`Scanner.TextEntryLandmarkExists`). Once M focuses it, the text-entry guard blocks every further category key. This is why the cycling lemmas require a list free of text-entry controls. Headers and links never contain one (`NavProps.HeaderAndLinkCycles`).
- **Forward step from the backward sentinel.** The mirror case: a backward switch onto an empty category sets the index to its length, 0. If elements then appear and the user presses ArrowDown and the key, the step from 0 lands on index 1 and element 0 is skipped (`NavProps.EmptyBackwardSwitchSkipsFirst`).
- **No trailing rescan.** The expiry callback (navigationAZ.js:136-138) only empties the timer slot; nothing rescans after a burst. The cached lists can therefore lag behind the document (`NavProps.BurstLeavesCacheStaleButNavigationFresh`), as they also can for changes the observer does not watch (see "Observer scope" below). Navigation is unaffected, because every category key rescans first.
- **No stale-reference check.** Nothing checks that the highlighted node is still attached: `clearHighlight` (navigationAZ.js:46-51) removes the class from `prevEl` wherever it is. When a batch removes the focused node, focus returns to the body (`Dom.KeepFocus`).

## Left out

- **Browser side effects.** Real focus, `scrollIntoView` and the injected `<style>` element (navigationAZ.js:19-26, 56-58, 124) are abstracted as the focused id and the highlighted set.
  - `focusElement` always succeeds in the model. A browser may refuse to focus a hidden element.
  - A focus move by the user onto a node in the document is taken to succeed: disabled and otherwise non-focusable nodes are not modelled.
- **Event-loop wiring.** `addEventListener`/`removeEventListener`, the MutationObserver's registration and `disconnect` (navigationAZ.js:113-122) become the `attached` flag and the `DocumentChanged` event.
  - The observer's batching of mutation records into one callback is taken as given.
- **Observer scope.** The observer watches only child-list changes under `document.body` (navigationAZ.js:114). A change that is only an attribute (`role`, `tabindex`) or lies in `<head>` fires no callback in a browser. In the model every document change is a `DocumentChanged` event that reaches the debounced rescan, so such a change is taken as delivered with the next child-list batch. This is a second reason the cached lists can lag behind the document; navigation is unaffected, because it never reads the cache.
- **Timer timing.** The 100 ms timing and `clearTimeout`/`setTimeout` (navigationAZ.js:135-138) are abstracted into call and expiry events. A restarted timer is one pending timer.
- **Upper-casing.** `toUpperCase` is modelled on ASCII letters only. Other characters map to themselves.
- **Highlight class written by others.** The highlighted set holds the nodes this engine marked. Another engine instance or page code that adds or removes the same class is not modelled.
- **Moves within one batch.** A browser blurs a focused node as soon as it is detached, even if the same batch re-inserts it elsewhere. The model sees only the document after the batch, so a node moved within one batch keeps focus there.
- **Tag names.** Tags are compared as the DOM reports `tagName` for HTML elements, in upper case. Elements of foreign namespaces (for example an SVG `a`, whose `tagName` is lower case) are not modelled.
- **Document tree.** The document is flat: only document order matters to the engine. Shadow roots and frames are not modelled.
- **Non-engine tests and tooling.** The demo-panel and dynamic-container tests (__tests__/keyboardNav.test.js:80-168) and jest.config.mjs are not part of the engine.
- NavProps.CycleVisitsEachOnceInOrder: requires the list to contain no text-entry control, because for landmarks the cycle genuinely stops at one (see the notes above).
- NavProps.CycleVisitsEachOnceInOrder: requires a document holding every node once, so that focusing a listed element makes that element active.

=== FILE: debounce.dfy ===
/**
  The `debounce` helper wrapped around the mutation observer's rescan.

  The closure holds one timer slot. A call runs the wrapped function only
  when no timer is pending, then (re)starts the timer. When the timer expires
  it merely empties the slot: the helper is leading-edge only, with no
  trailing invocation. Time itself is abstracted into the two events `Call`
  and `Expire`; a restarted timer is one pending timer.
*/
module Debounce {

  datatype Debouncer = Debouncer(pending: bool)

  const Idle := Debouncer(false)

  /** The debouncer after an event, and whether the wrapped function ran. */
  datatype Outcome = Outcome(next: Debouncer, runs: bool)

  datatype TimerEvent = Call | Expire

  /** A call of the debounced function. */
  function OnCall(d: Debouncer): (r: Outcome)
    ensures r.runs <==> !d.pending
    ensures r.next.pending
  {
    Outcome(Debouncer(true), !d.pending)
  }

  /** The timer's callback: it empties the slot and never runs the wrapped
      function. */
  function OnExpire(d: Debouncer): (r: Outcome)
    ensures !r.runs && !r.next.pending
  {
    Outcome(Idle, false)
  }

  function Handle(d: Debouncer, ev: TimerEvent): Outcome {
    match ev
    case Call => OnCall(d)
    case Expire => OnExpire(d)
  }

  /** The state after a sequence of events. */
  function After(d: Debouncer, evs: seq<TimerEvent>): Debouncer
    decreases |evs|
  {
    if |evs| == 0 then d else Handle(After(d, evs[..|evs| - 1]), evs[|evs| - 1]).next
  }

  /** For each event of a sequence, whether it ran the wrapped function. */
  function Runs(d: Debouncer, evs: seq<TimerEvent>): (r: seq<bool>)
    ensures |r| == |evs|
    decreases |evs|
  {
    if |evs| == 0 then []
    else
      var front := evs[..|evs| - 1];
      Runs(d, front) + [Handle(After(d, front), evs[|evs| - 1]).runs]
  }

  /** The pending flag after events: set by the last call, cleared by the
      last expiry, unchanged by no event. */
  lemma {:induction false} PendingAfter(d: Debouncer, evs: seq<TimerEvent>)
    ensures After(d, evs).pending == if |evs| == 0 then d.pending else evs[|evs| - 1] == Call
  {
  }

  /** Leading edge exactly: the wrapped function runs on the i-th event if and
      only if it is a call and the event before it was an expiry (or, for the
      first event, no timer was pending to begin with). */
  lemma {:induction false} RunsExactlyOnLeadingEdge(d: Debouncer, evs: seq<TimerEvent>)
    ensures forall i {:trigger Runs(d, evs)[i]} :: 0 <= i < |evs| ==>
      (Runs(d, evs)[i] <==> evs[i] == Call && (if i == 0 then !d.pending else evs[i - 1] == Expire))
    decreases |evs|
  {
    if |evs| > 0 {
      var n := |evs| - 1;
      var front := evs[..n];
      RunsExactlyOnLeadingEdge(d, front);
      PendingAfter(d, front);
      assert Runs(d, evs) == Runs(d, front) + [Handle(After(d, front), evs[n]).runs];
      forall i | 0 <= i < n
        ensures Runs(d, evs)[i] <==> evs[i] == Call && (if i == 0 then !d.pending else evs[i - 1] == Expire)
      {
        assert Runs(d, evs)[i] == Runs(d, front)[i];
        assert Runs(d, front)[i] <==> front[i] == Call && (if i == 0 then !d.pending else front[i - 1] == Expire);
        assert front[i] == evs[i];
        if i > 0 {
          assert front[i - 1] == evs[i - 1];
        }
      }
      if n > 0 {
        assert front[n - 1] == evs[n - 1];
      }
      assert Runs(d, evs)[n] == Handle(After(d, front), evs[n]).runs;
      assert After(d, front).pending == if n == 0 then d.pending else front[n - 1] == Call;
      if evs[n] == Call {
        assert Runs(d, evs)[n] == !After(d, front).pending;
      } else {
        assert !Runs(d, evs)[n];
      }
    }
  }

  /** `n` calls in a row. */
  function Calls(n: nat): (r: seq<TimerEvent>)
    ensures |r| == n
    ensures forall i :: 0 <= i < n ==> r[i] == Call
  {
    seq(n, _ => Call)
  }

  /** A burst of calls with no expiry in between runs the wrapped function
      at most once, and exactly once when it starts idle. */
  lemma {:induction false} BurstRunsOnce(d: Debouncer, n: nat)
    requires n > 0
    ensures var runs := Runs(d, Calls(n));
      (runs[0] <==> !d.pending) && forall i :: 0 < i < n ==> !runs[i]
  {
    var calls := Calls(n);
    RunsExactlyOnLeadingEdge(d, calls);
    assert Runs(d, calls)[0] <==> calls[0] == Call && !d.pending;
    forall i | 0 < i < n ensures !Runs(d, calls)[i] {
      assert calls[i - 1] == Call;
    }
  }
}

=== FILE: dom.dfy ===
/**
  The abstract document the keyboard navigation engine works on.

  A document is the sequence of its elements in document order. Each element
  is reduced to what the engine looks at: its identity, its tag name and its
  `role` attribute. The `tabindex` attributes live in the focus controller's
  state (see module Highlight), because the engine is the only one that writes
  them and a scan never reads them.
*/
module Dom {

  datatype Option<+T> = None | Some(value: T)

  /** Node identity: two records with the same id denote the same DOM node. */
  type Id = nat

  /** One element: identity, tag name as the DOM reports it (`tagName`, upper
      case for HTML elements) and the optional `role` attribute. */
  datatype Element = Element(id: Id, tag: string, role: Option<string>)

  type Document = seq<Element>

  /** A live DOM tree holds every node once. */
  predicate DistinctIds(doc: Document) {
    forall i, j :: 0 <= i < j < |doc| ==> doc[i].id != doc[j].id
  }

  /** The node with the given identity, if it is attached to the document. */
  function Lookup(doc: Document, id: Id): (r: Option<Element>)
    ensures r.Some? ==> r.value in doc && r.value.id == id
    ensures r.None? ==> forall k :: 0 <= k < |doc| ==> doc[k].id != id
  {
    if |doc| == 0 then None
    else if doc[0].id == id then Some(doc[0])
    else Lookup(doc[1..], id)
  }

  /** In a well-formed document, looking an attached element up by its
      identity yields that very element. */
  lemma {:induction false} LookupAttached(doc: Document, k: nat)
    requires DistinctIds(doc)
    requires k < |doc|
    ensures Lookup(doc, doc[k].id) == Some(doc[k])
  {
    if k > 0 {
      assert doc[0].id != doc[k].id;
      assert DistinctIds(doc[1..]) by {
        forall i, j | 0 <= i < j < |doc[1..]|
          ensures doc[1..][i].id != doc[1..][j].id
        {
          assert doc[1..][i] == doc[i + 1] && doc[1..][j] == doc[j + 1];
        }
      }
      LookupAttached(doc[1..], k - 1);
      assert doc[1..][k - 1] == doc[k];
    }
  }

  /** Membership form of LookupAttached. */
  lemma LookupMember(doc: Document, e: Element)
    requires DistinctIds(doc)
    requires e in doc
    ensures Lookup(doc, e.id) == Some(e)
  {
    var k :| 0 <= k < |doc| && doc[k] == e;
    LookupAttached(doc, k);
  }

  /** The tag name of `document.activeElement`. With nothing focused, or
      with the focused node detached from the document, the active element is
      the body. */
  function ActiveTag(doc: Document, focused: Option<Id>): (t: string)
    ensures focused.None? ==> t == "BODY"
    ensures focused.Some? && Lookup(doc, focused.value).Some? ==> t == Lookup(doc, focused.value).value.tag
    ensures focused.Some? && Lookup(doc, focused.value).None? ==> t == "BODY"
  {
    match focused
    case None => "BODY"
    case Some(id) =>
      match Lookup(doc, id)
      case None => "BODY"
      case Some(e) => e.tag
  }

  /** Focus after a change of the document: removing the focused node
      returns focus to the body, and focus stays there even if the node is
      put back later. */
  function KeepFocus(doc: Document, focused: Option<Id>): (f: Option<Id>)
    ensures f.Some? ==> f == focused && Lookup(doc, f.value).Some?
    ensures focused.Some? && Lookup(doc, focused.value).Some? ==> f == focused
    ensures ActiveTag(doc, f) == ActiveTag(doc, focused)
  {
    match focused
    case None => None
    case Some(id) => if Lookup(doc, id).Some? then focused else None
  }

  /** The controls in which H, L and M are typed text rather than commands. */
  const TextEntryTags: set<string> := {"INPUT", "TEXTAREA", "SELECT"}

  predicate IsTextEntry(tag: string) {
    tag in TextEntryTags
  }

  /** `String.prototype.toUpperCase` on one character, for ASCII letters. */
  function Upper(ch: char): char {
    if 'a' <= ch <= 'z' then (ch as int - 32) as char else ch
  }

  function ToUpper(s: string): (r: string)
    ensures |r| == |s|
    ensures forall i :: 0 <= i < |s| ==> r[i] == Upper(s[i])
  {
    seq(|s|, i requires 0 <= i < |s| => Upper(s[i]))
  }

  /** The only characters that upper-case to an upper-case letter `u` are `u`
      itself and its lower-case partner. */
  lemma UpperInverse(ch: char, u: char)
    requires 'A' <= u <= 'Z'
    ensures Upper(ch) == u <==> ch == u || ch as int == u as int + 32
  {
  }
}

=== FILE: highlight.dfy ===
/**
  The focus/highlight controller: `makeFocusable`, `clearHighlight` and
  `focusElement`.

  The browser side effects are abstracted as data: the set of nodes this engine
  has marked with the highlight class, the `tabindex` attributes, and the focused node.
  Scrolling and the injected style rule have no counterpart.
*/
module Highlight {
  import opened Dom

  /** The `tabindex` value `makeFocusable` assigns: focusable by script, out
      of the tab order. */
  const ScriptFocusable: string := "-1"

  /** `prevEl`, the nodes this engine marked with the highlight class, every node's
      `tabindex` attribute (a node without one is not a key) and the node
      holding keyboard focus. */
  datatype Controller = Controller(
    prevEl: Option<Id>,
    highlighted: set<Id>,
    tabindex: map<Id, string>,
    focused: Option<Id>)

  /** The single-highlight invariant: the highlighted nodes are exactly
      `prevEl`, so at most one node is highlighted. */
  predicate SingleHighlight(h: Controller) {
    h.highlighted == (if h.prevEl.Some? then {h.prevEl.value} else {})
  }

  lemma SingleHighlightAtMostOne(h: Controller)
    requires SingleHighlight(h)
    ensures |h.highlighted| <= 1
    ensures forall id :: id in h.highlighted ==> h.prevEl == Some(id)
  {
  }

  /** Gives a node a `tabindex` only when it has none; an existing value,
      whatever it is, is kept. */
  function MakeFocusable(tabindex: map<Id, string>, id: Id): (r: map<Id, string>)
    ensures r.Keys == tabindex.Keys + {id}
    ensures id in tabindex ==> r[id] == tabindex[id]
    ensures id !in tabindex ==> r[id] == ScriptFocusable
    ensures forall k :: k in tabindex ==> r[k] == tabindex[k]
  {
    if id in tabindex then tabindex else tabindex[id := ScriptFocusable]
  }

  /** Making a node focusable twice is making it focusable once. */
  lemma MakeFocusableIdempotent(tabindex: map<Id, string>, id: Id)
    ensures MakeFocusable(MakeFocusable(tabindex, id), id) == MakeFocusable(tabindex, id)
  {
  }

  /** Removes the highlight from `prevEl`, if any, and forgets it. Focus and
      attributes are untouched; under the invariant nothing stays
      highlighted. */
  function ClearHighlight(h: Controller): (r: Controller)
    ensures r.prevEl.None?
    ensures r.focused == h.focused && r.tabindex == h.tabindex
    ensures r.highlighted <= h.highlighted
    ensures SingleHighlight(h) ==> r.highlighted == {} && SingleHighlight(r)
  {
    match h.prevEl
    case None => h
    case Some(p) => h.(highlighted := h.highlighted - {p}, prevEl := None)
  }

  /** Moves focus and highlight to node `id`. */
  function FocusElement(h: Controller, id: Id): (r: Controller)
    ensures r.focused == Some(id) && r.prevEl == Some(id)
    ensures id in r.highlighted
    ensures r.tabindex == MakeFocusable(h.tabindex, id)
    ensures SingleHighlight(h) ==> r.highlighted == {id} && SingleHighlight(r)
  {
    var cleared := ClearHighlight(h);
    cleared.(
      tabindex := MakeFocusable(cleared.tabindex, id),
      focused := Some(id),
      highlighted := cleared.highlighted + {id},
      prevEl := Some(id))
  }
}

=== FILE: navigator.dfy ===
/**
  The navigator: the state `initKeyboardNav` keeps in its closure and the
  transitions of its event handlers.

  A `World` is the document, the focus controller's view of it and the
  engine's own state. Each handler is a pure function from world to world:
  `onKeyDown` for key presses, the mutation observer's debounced rescan for
  document changes, the debounce timer's expiry, the returned `teardown`, and
  focus moved by the user (a click into a text field, say).
*/
module Navigator {
  import opened Dom
  import opened Scanner
  import opened Wrap
  import opened Highlight
  import opened Debounce

  /** `direction`: 1 after ArrowDown (and initially), -1 after ArrowUp. */
  datatype Direction = Forward | Backward {
    function Step(): (d: int)
      ensures d == 1 || d == -1
    {
      if Forward? then 1 else -1
    }
  }

  /** The closure's variables: the cached lists, `currentType`,
      `currentIndex`, `direction`, the debounce timer slot, and whether the
      listeners are still attached (false after `teardown`). */
  datatype Engine = Engine(
    lists: Lists,
    current: Option<Category>,
    index: int,
    direction: Direction,
    timer: Debouncer,
    attached: bool)

  datatype World = World(doc: Document, ctl: Controller, engine: Engine)

  /** What holds of every reachable world: the index never drops below the
      forward sentinel -1, the only highlighted node is `prevEl`, and after
      teardown no node is highlighted. */
  predicate Valid(w: World) {
    && w.engine.index >= -1
    && SingleHighlight(w.ctl)
    && (!w.engine.attached ==> w.ctl.prevEl.None?)
  }

  /** `initKeyboardNav` before this engine has marked any node:
      one scan, no category, index 0, forward, no timer, listeners attached.
      A `focused` node that is not in the document cannot hold focus. */
  function Init(doc: Document, tabindex: map<Id, string>, focused: Option<Id>): (w: World)
    ensures Valid(w)
    ensures w.engine.lists == Scan(doc) && w.engine.current.None?
    ensures w.engine.index == 0 && w.engine.direction == Forward
    ensures !w.engine.timer.pending && w.engine.attached
    ensures w.ctl.highlighted == {} && w.ctl.prevEl.None? && w.ctl.focused == KeepFocus(doc, focused)
  {
    World(doc,
          Controller(None, {}, tabindex, KeepFocus(doc, focused)),
          Engine(Scan(doc), None, 0, Forward, Idle, true))
  }

  /** The tag of the active element in a world. */
  function Active(w: World): string {
    ActiveTag(w.doc, w.ctl.focused)
  }

  datatype KeyAction = ArrowUp | ArrowDown | CategoryKey(c: Category) | OtherKey

  /** `onKeyDown`'s reading of `e.key.toUpperCase()`. */
  function DecodeKey(key: string): KeyAction {
    var k := ToUpper(key);
    if k == "ARROWUP" then ArrowUp
    else if k == "ARROWDOWN" then ArrowDown
    else if k == "H" then CategoryKey(Headers)
    else if k == "L" then CategoryKey(Links)
    else if k == "M" then CategoryKey(Landmarks)
    else OtherKey
  }

  /** The upper-case letter of a category key. */
  function KeyLetter(c: Category): char {
    match c
    case Headers => 'H'
    case Links => 'L'
    case Landmarks => 'M'
  }

  /** Category keys are case-insensitive and nothing else selects them:
      a key selects category `c` exactly when it is `c`'s letter in either
      case. */
  lemma DecodeCategoryKey(key: string, c: Category)
    ensures DecodeKey(key) == CategoryKey(c) <==>
      key == [KeyLetter(c)] || key == [(KeyLetter(c) as int + 32) as char]
  {
    var u := KeyLetter(c);
    if DecodeKey(key) == CategoryKey(c) {
      assert ToUpper(key) == [u];
      UpperInverse(key[0], u);
    }
    if key == [(u as int + 32) as char] {
      assert ToUpper(key) == [u];
    }
    if key == [u] {
      assert ToUpper(key) == [u];
    }
  }

  /** `movePointer`: nothing on an empty list; otherwise step the index with
      wrap-around and focus the element there. */
  function MovePointer(w: World, list: Document): (r: World)
    requires w.engine.index >= -1
    ensures |list| == 0 ==> r == w
    ensures |list| > 0 ==>
      && 0 <= r.engine.index < |list|
      && r.engine.index == MoveIndex(w.engine.index, w.engine.direction.Step(), |list|)
      && r.ctl == FocusElement(w.ctl, list[r.engine.index].id)
      && r.engine == w.engine.(index := r.engine.index)
    ensures r.doc == w.doc
  {
    if |list| == 0 then w
    else
      var i := MoveIndex(w.engine.index, w.engine.direction.Step(), |list|);
      w.(engine := w.engine.(index := i), ctl := FocusElement(w.ctl, list[i].id))
  }

  /** The index `handleNavKey` moves from: the current one when the category
      is unchanged, otherwise the sentinel just outside the list in the
      direction of travel (`-1` forward, the list's length backward). */
  function StartIndex(e: Engine, c: Category, len: nat): (i: int)
    requires e.index >= -1
    ensures i >= -1
    ensures e.current != Some(c) ==> i == (if e.direction == Forward then -1 else len)
    ensures e.current == Some(c) ==> i == e.index
  {
    if e.current != Some(c) then (if e.direction.Step() > 0 then -1 else len)
    else e.index
  }

  /** `handleNavKey`: ignored while a text-entry control has focus;
      otherwise rescan, reset on a category switch, and move. */
  function HandleNavKey(w: World, c: Category): (r: World)
    requires Valid(w) && w.engine.attached
    ensures Valid(r)
    ensures IsTextEntry(Active(w)) ==> r == w
    ensures !IsTextEntry(Active(w)) ==>
      && r.engine.lists == Scan(w.doc)
      && r.engine.current == Some(c)
    ensures r.doc == w.doc
    ensures r.engine.direction == w.engine.direction
    ensures r.engine.timer == w.engine.timer && r.engine.attached
  {
    if IsTextEntry(Active(w)) then w
    else
      var lists := Scan(w.doc);
      var len := |GetList(lists, Some(c))|;
      var e := w.engine.(lists := lists);
      var e' := e.(current := Some(c), index := StartIndex(e, c, len));
      MovePointer(w.(engine := e'), GetList(lists, Some(c)))
  }

  /** `onKeyDown`: arrows set the direction and nothing else, category keys
      go to `handleNavKey`, other keys are ignored. */
  function OnKeyDown(w: World, key: string): (r: World)
    requires Valid(w) && w.engine.attached
    ensures Valid(r) && r.engine.attached
    ensures r.doc == w.doc
    ensures DecodeKey(key) == OtherKey ==> r == w
    ensures DecodeKey(key) == ArrowUp ==> r == w.(engine := w.engine.(direction := Backward))
    ensures DecodeKey(key) == ArrowDown ==> r == w.(engine := w.engine.(direction := Forward))
  {
    match DecodeKey(key)
    case ArrowUp => w.(engine := w.engine.(direction := Backward))
    case ArrowDown => w.(engine := w.engine.(direction := Forward))
    case CategoryKey(c) => HandleNavKey(w, c)
    case OtherKey => w
  }

  /** The mutation observer's callback, `debounce(scanElements, 100)`:
      rescan only when no timer is pending, and (re)start the timer. The
      pointer and the focus are never touched. */
  function OnMutation(w: World): (r: World)
    requires Valid(w)
    ensures Valid(r)
    ensures r.engine.timer.pending
    ensures r.engine.lists == (if w.engine.timer.pending then w.engine.lists else Scan(w.doc))
    ensures r.ctl == w.ctl && r.doc == w.doc
    ensures r.engine.(lists := w.engine.lists, timer := w.engine.timer) == w.engine
  {
    var o := OnCall(w.engine.timer);
    w.(engine := w.engine.(timer := o.next, lists := if o.runs then Scan(w.doc) else w.engine.lists))
  }

  /** The function `initKeyboardNav` returns: detach the listeners and clear
      the highlight. The pending timer, if any, is left to expire. */
  function Teardown(w: World): (r: World)
    requires Valid(w)
    ensures Valid(r)
    ensures r.ctl.highlighted == {} && r.ctl.prevEl.None?
    ensures !r.engine.attached
    ensures r.ctl.focused == w.ctl.focused && r.ctl.tabindex == w.ctl.tabindex
    ensures r.doc == w.doc && r.engine == w.engine.(attached := false)
  {
    w.(ctl := ClearHighlight(w.ctl), engine := w.engine.(attached := false))
  }

  /** What can happen to an engine: a key press, a batch of child-list
      mutations leaving the given document and `tabindex` attributes (a
      focused node the batch removed loses focus to the body), the debounce
      timer firing, focus moved by the user (a node outside the document
      cannot take focus), and teardown. */
  datatype Event =
    | KeyDown(key: string)
    | DocumentChanged(doc: Document, tabindex: map<Id, string>)
    | TimerExpired
    | FocusMoved(target: Option<Id>)
    | TornDown

  /** One event. Once torn down, key presses and mutations reach no
      listener; the timer still fires. */
  function Step(w: World, ev: Event): (r: World)
    requires Valid(w)
    ensures Valid(r)
    ensures !w.engine.attached ==> !r.engine.attached && r.ctl.highlighted == {}
    ensures ev.KeyDown? ==> r.doc == w.doc && r.engine.attached == w.engine.attached
    ensures !w.engine.attached && ev.KeyDown? ==> r == w
    ensures ev.DocumentChanged? ==>
      r.doc == ev.doc && r.ctl.focused == KeepFocus(ev.doc, w.ctl.focused)
    ensures ev.FocusMoved? && ev.target.Some? && Lookup(w.doc, ev.target.value).None? ==> r == w
    ensures ev.FocusMoved? && (ev.target.None? || Lookup(w.doc, ev.target.value).Some?) ==>
      r == w.(ctl := w.ctl.(focused := ev.target))
  {
    match ev
    case KeyDown(key) => if w.engine.attached then OnKeyDown(w, key) else w
    case DocumentChanged(doc, tabindex) =>
      var w' := w.(doc := doc, ctl := w.ctl.(tabindex := tabindex, focused := KeepFocus(doc, w.ctl.focused)));
      if w.engine.attached then OnMutation(w') else w'
    case TimerExpired => w.(engine := w.engine.(timer := OnExpire(w.engine.timer).next))
    case FocusMoved(target) =>
      if target.Some? && Lookup(w.doc, target.value).None? then w
      else w.(ctl := w.ctl.(focused := target))
    case TornDown => Teardown(w)
  }

  /** A sequence of events, in order. */
  function Run(w: World, evs: seq<Event>): (r: World)
    requires Valid(w)
    ensures Valid(r)
    decreases |evs|
  {
    if |evs| == 0 then w else Run(Step(w, evs[0]), evs[1..])
  }
}

=== FILE: navprops.dfy ===
/**
  Properties of the navigator over several events: where a category key
  lands, how repeated presses cycle, how reversal and teardown behave, and
  why the debounced cache never affects navigation.
*/
module NavProps {
  import opened Dom
  import opened Scanner
  import opened Wrap
  import opened Highlight
  import opened Debounce
  import opened Navigator

  /** No element of the list is a text-entry control, so focusing one of
      them never arms the text-entry guard. */
  predicate NoTextEntry(list: Document) {
    forall i :: 0 <= i < |list| ==> !IsTextEntry(list[i].tag)
  }

  /** The key event of a category's letter. */
  function LetterKey(c: Category): (ev: Event)
    ensures ev.KeyDown? && DecodeKey(ev.key) == CategoryKey(c)
  {
    DecodeCategoryKey([KeyLetter(c)], c);
    KeyDown([KeyLetter(c)])
  }

  /** Where a category key lands. An empty category changes neither focus
      nor highlight and leaves the index where the switch put it; otherwise
      the index steps from the start index with wrap-around, into
      `[0, length)`, and exactly the element there is focused and
      highlighted, after being made focusable. */
  lemma CategoryKeyLands(w: World, c: Category)
    requires Valid(w) && w.engine.attached
    requires !IsTextEntry(Active(w))
    ensures var list := Filter(w.doc, c);
      var r := HandleNavKey(w, c);
      var start := StartIndex(w.engine, c, |list|);
      && r.engine.current == Some(c)
      && (|list| == 0 ==> r.ctl == w.ctl && r.engine.index == start)
      && (|list| > 0 ==>
          var i := r.engine.index;
          && 0 <= i < |list|
          && i == MoveIndex(start, w.engine.direction.Step(), |list|)
          && r.ctl.focused == Some(list[i].id)
          && r.ctl.prevEl == Some(list[i].id)
          && r.ctl.highlighted == {list[i].id}
          && r.ctl.tabindex == MakeFocusable(w.ctl.tabindex, list[i].id))
  {
    HandleNavKeyMoves(w, c);
  }

  /** An unguarded category key is a rescan, a switch to the category at
      its start index, and a move through the rescanned list. */
  lemma HandleNavKeyMoves(w: World, c: Category)
    requires Valid(w) && w.engine.attached
    requires !IsTextEntry(Active(w))
    ensures var list := Filter(w.doc, c);
      var e := w.engine.(lists := Scan(w.doc), current := Some(c), index := StartIndex(w.engine, c, |list|));
      HandleNavKey(w, c) == MovePointer(w.(engine := e), list)
  {
    assert GetList(Scan(w.doc), Some(c)) == Filter(w.doc, c);
  }

  /** On a switch to another category the sentinel makes the first move
      land on the first element in the direction of travel: index 0 going
      forward, the last index going backward. */
  lemma SwitchLandsOnFirstInTravelDirection(w: World, c: Category)
    requires Valid(w) && w.engine.attached
    requires !IsTextEntry(Active(w))
    requires w.engine.current != Some(c)
    requires |Filter(w.doc, c)| > 0
    ensures var len := |Filter(w.doc, c)|;
      HandleNavKey(w, c).engine.index == if w.engine.direction == Forward then 0 else len - 1
  {
    CategoryKeyLands(w, c);
  }

  /** Pressing the key of the current category again moves one step in the
      direction of travel, circularly both ways: forward from the last
      element to the first, backward from the first to the last. */
  lemma SameCategoryStepsCircularly(w: World, c: Category)
    requires Valid(w) && w.engine.attached
    requires !IsTextEntry(Active(w))
    requires w.engine.current == Some(c)
    requires 0 <= w.engine.index < |Filter(w.doc, c)|
    ensures var len, i := |Filter(w.doc, c)|, w.engine.index;
      HandleNavKey(w, c).engine.index ==
        if w.engine.direction == Forward then (if i == len - 1 then 0 else i + 1)
        else (if i == 0 then len - 1 else i - 1)
  {
    CategoryKeyLands(w, c);
  }

  /** A text-entry control with focus turns category keys into no-ops: no
      rescan, no pointer move, no focus or highlight change. */
  lemma TextEntryBlocksCategoryKeys(w: World, key: string)
    requires Valid(w) && w.engine.attached
    requires DecodeKey(key).CategoryKey?
    requires IsTextEntry(Active(w))
    ensures OnKeyDown(w, key) == w
  {
  }

  /** The user focuses an attached input; a category key then leaves the
      input focused and everything else as it was. */
  lemma FocusedInputKeepsFocus(w: World, e: Element, key: string)
    requires Valid(w) && w.engine.attached && DistinctIds(w.doc)
    requires e in w.doc && e.tag == "INPUT"
    requires DecodeKey(key).CategoryKey?
    ensures var w' := Step(w, FocusMoved(Some(e.id)));
      Step(w', KeyDown(key)) == w' && w'.ctl.focused == Some(e.id)
  {
    LookupMember(w.doc, e);
  }

  /** `n` presses of a category's key, while listening; see PressIsKeyDown. */
  function Press(w: World, c: Category, n: nat): (r: World)
    requires Valid(w) && w.engine.attached
    ensures Valid(r) && r.doc == w.doc && r.engine.attached
    decreases n
  {
    if n == 0 then w else Press(HandleNavKey(w, c), c, n - 1)
  }

  /** Each press is the key event of the category's letter. */
  lemma PressIsKeyDown(w: World, c: Category, n: nat)
    requires Valid(w) && w.engine.attached
    ensures Press(w, c, n + 1) == Press(Step(w, LetterKey(c)), c, n)
  {
  }

  /** `n` key-down events of the letter of `c`. */
  function LetterKeys(c: Category, n: nat): (evs: seq<Event>)
    ensures |evs| == n
    ensures forall i :: 0 <= i < n ==> evs[i] == LetterKey(c)
  {
    seq(n, _ => LetterKey(c))
  }

  /** `Press` is `Run` on a stream of the category's key. */
  lemma {:induction false} PressIsRun(w: World, c: Category, n: nat)
    requires Valid(w) && w.engine.attached
    ensures Press(w, c, n) == Run(w, LetterKeys(c, n))
    decreases n
  {
    if n > 0 {
      PressIsRun(HandleNavKey(w, c), c, n - 1);
      assert LetterKeys(c, n)[1..] == LetterKeys(c, n - 1);
      assert Step(w, LetterKey(c)) == HandleNavKey(w, c);
    }
  }

  /** The element the index designates is focused and is `prevEl`, hence,
      under the invariant, the one highlighted element. */
  predicate Landed(r: World, list: Document, i: int) {
    && 0 <= i < |list|
    && r.engine.index == i
    && r.ctl.focused == Some(list[i].id)
    && r.ctl.prevEl == Some(list[i].id)
  }

  /** Focusing any element of the list leaves the text-entry guard open. */
  predicate GuardOpenOn(doc: Document, list: Document) {
    forall j :: 0 <= j < |list| ==> !IsTextEntry(ActiveTag(doc, Some(list[j].id)))
  }

  /** In a well-formed document, a list free of text-entry controls keeps
      the guard open wherever the pointer rests on it. */
  lemma GuardOpenOnList(doc: Document, c: Category)
    requires DistinctIds(doc) && NoTextEntry(Filter(doc, c))
    ensures GuardOpenOn(doc, Filter(doc, c))
  {
    var list := Filter(doc, c);
    forall j | 0 <= j < |list| ensures !IsTextEntry(ActiveTag(doc, Some(list[j].id))) {
      FilterMembership(doc, c, list[j]);
      LookupMember(doc, list[j]);
    }
  }

  /** What keeps forward presses of `c` stepping through its list:
      listening, category `c` selected, forward travel, and an open guard on
      every element of the list. */
  predicate Cycling(p: World, c: Category) {
    && Valid(p) && p.engine.attached
    && p.engine.current == Some(c) && p.engine.direction == Forward
    && GuardOpenOn(p.doc, Filter(p.doc, c))
  }

  /** The first forward press after a switch lands on element 0. */
  lemma FirstForwardPress(w: World, c: Category)
    requires Valid(w) && w.engine.attached
    requires w.engine.current != Some(c) && w.engine.direction == Forward
    requires !IsTextEntry(Active(w))
    requires |Filter(w.doc, c)| > 0
    ensures var r := HandleNavKey(w, c);
      && r.engine.current == Some(c) && r.engine.direction == Forward
      && Landed(r, Filter(w.doc, c), 0)
  {
    CategoryKeyLands(w, c);
    SwitchLandsOnFirstInTravelDirection(w, c);
  }

  /** From a landed element, a forward press lands on the next one, or on
      the first after the last. */
  lemma NextForwardPress(p: World, c: Category)
    requires Cycling(p, c)
    requires Landed(p, Filter(p.doc, c), p.engine.index)
    ensures var list, i := Filter(p.doc, c), p.engine.index;
      var r := HandleNavKey(p, c);
      && Cycling(r, c)
      && Landed(r, list, if i == |list| - 1 then 0 else i + 1)
  {
    CategoryKeyLands(p, c);
    SameCategoryStepsCircularly(p, c);
  }

  /** From a world resting on element i of the list, m more presses rest on
      element i + m, or on the first element once the end is passed. */
  lemma {:induction false} CycleFrom(p: World, c: Category, m: nat)
    requires Cycling(p, c)
    requires Landed(p, Filter(p.doc, c), p.engine.index)
    requires p.engine.index + m <= |Filter(p.doc, c)|
    ensures var i, len := p.engine.index + m, |Filter(p.doc, c)|;
      && Cycling(Press(p, c, m), c)
      && Landed(Press(p, c, m), Filter(p.doc, c), if i == len then 0 else i)
    decreases m
  {
    if m > 0 {
      NextForwardPress(p, c);
      CycleFrom(HandleNavKey(p, c), c, m - 1);
    }
  }

  /** The k-th press after a forward switch, for k from 1 to one past the
      list's length, rests on the k-th element, and the one past the end on
      the first again. */
  lemma PressAfterSwitch(w: World, c: Category, k: nat)
    requires Valid(w) && w.engine.attached && DistinctIds(w.doc)
    requires w.engine.current != Some(c) && w.engine.direction == Forward
    requires !IsTextEntry(Active(w))
    requires NoTextEntry(Filter(w.doc, c))
    requires 0 < |Filter(w.doc, c)|
    requires 1 <= k <= |Filter(w.doc, c)| + 1
    ensures var list := Filter(w.doc, c);
      Landed(Press(w, c, k), list, if k == |list| + 1 then 0 else k - 1)
  {
    GuardOpenOnList(w.doc, c);
    FirstForwardPress(w, c);
    CycleFrom(HandleNavKey(w, c), c, k - 1);
  }

  /** Cycling: with a stable document, pressing a category key as many times
      as its list is long, starting from a switch going forward, visits
      every element of the list once, in document order, and the next press
      returns to the first. */
  lemma CycleVisitsEachOnceInOrder(w: World, c: Category)
    requires Valid(w) && w.engine.attached && DistinctIds(w.doc)
    requires w.engine.current != Some(c) && w.engine.direction == Forward
    requires !IsTextEntry(Active(w))
    requires NoTextEntry(Filter(w.doc, c))
    requires |Filter(w.doc, c)| > 0
    ensures var list := Filter(w.doc, c);
      && (forall k :: 1 <= k <= |list| ==> Press(w, c, k).ctl.focused == Some(list[k - 1].id))
      && (forall k1, k2 :: 1 <= k1 < k2 <= |list| ==> Press(w, c, k1).ctl.focused != Press(w, c, k2).ctl.focused)
      && Press(w, c, |list| + 1).engine.index == 0
      && Press(w, c, |list| + 1).ctl.focused == Some(list[0].id)
  {
    var list := Filter(w.doc, c);
    forall k | 1 <= k <= |list| ensures Press(w, c, k).ctl.focused == Some(list[k - 1].id) {
      PressAfterSwitch(w, c, k);
    }
    FilterDistinct(w.doc, c);
    forall k1, k2 | 1 <= k1 < k2 <= |list| ensures Press(w, c, k1).ctl.focused != Press(w, c, k2).ctl.focused {
      PressAfterSwitch(w, c, k1);
      PressAfterSwitch(w, c, k2);
    }
    PressAfterSwitch(w, c, |list| + 1);
  }

  /** On a freshly initialised engine with nothing focused, the first press
      of a category key focuses and solely highlights the first element of
      that category in document order. */
  lemma FirstPressFocusesFirst(doc: Document, tabindex: map<Id, string>, c: Category)
    requires |Filter(doc, c)| > 0
    ensures var e, r := Filter(doc, c)[0], Step(Init(doc, tabindex, None), LetterKey(c));
      r.ctl.focused == Some(e.id) && r.ctl.highlighted == {e.id}
  {
    var w0 := Init(doc, tabindex, None);
    assert Step(w0, LetterKey(c)) == HandleNavKey(w0, c);
    FirstForwardPress(w0, c);
  }

  /** A header appended to the end of the document after initialisation is
      the last header, so as many presses of H as there are headers end on
      it. */
  lemma AppendedHeaderIsReachedLast(doc: Document, tabindex: map<Id, string>, h: Element)
    requires DistinctIds(doc + [h]) && IsHeader(h)
    ensures var w := Step(Init(doc, tabindex, None), DocumentChanged(doc + [h], tabindex));
      Press(w, Headers, |Filter(doc + [h], Headers)|).ctl.focused == Some(h.id)
  {
    var doc' := doc + [h];
    var w := Step(Init(doc, tabindex, None), DocumentChanged(doc', tabindex));
    assert doc'[..|doc|] == doc;
    assert Filter(doc', Headers) == Filter(doc, Headers) + [h];
    HeadersAndLinksAreNotTextEntry(doc', Headers);
    PressAfterSwitch(w, Headers, |Filter(doc', Headers)|);
  }

  /** Headers and links never include a text-entry control, so for them the
      cycle holds on every well-formed document. */
  lemma HeaderAndLinkCycles(w: World, c: Category)
    requires c != Landmarks
    requires Valid(w) && w.engine.attached && DistinctIds(w.doc)
    requires w.engine.current != Some(c) && w.engine.direction == Forward
    requires !IsTextEntry(Active(w))
    requires |Filter(w.doc, c)| > 0
    ensures var list := Filter(w.doc, c);
      && (forall k :: 1 <= k <= |list| ==> Press(w, c, k).ctl.focused == Some(list[k - 1].id))
      && Press(w, c, |list| + 1).ctl.focused == Some(list[0].id)
  {
    HeadersAndLinksAreNotTextEntry(w.doc, c);
    CycleVisitsEachOnceInOrder(w, c);
  }

  /** Reversal: from index i of the rescanned list of the current category,
      ArrowUp followed by the category's key moves to index i - 1, wrapping
      from the first element to the last. */
  lemma ReversalStepsBack(w: World, c: Category, up: string)
    requires Valid(w) && w.engine.attached
    requires DecodeKey(up) == ArrowUp
    requires !IsTextEntry(Active(w))
    requires w.engine.current == Some(c)
    requires 0 <= w.engine.index < |Filter(w.doc, c)|
    ensures var list, i := Filter(w.doc, c), w.engine.index;
      var r := OnKeyDown(OnKeyDown(w, up), [KeyLetter(c)]);
      var j := if i == 0 then |list| - 1 else i - 1;
      && r.engine.index == j
      && r.ctl.focused == Some(list[j].id)
      && r.ctl.highlighted == {list[j].id}
      && r.engine.direction == Backward
  {
    var b := OnKeyDown(w, up);
    DecodeCategoryKey([KeyLetter(c)], c);
    CategoryKeyLands(b, c);
    SameCategoryStepsCircularly(b, c);
  }

  /** The mirror of the backward-from-sentinel quirk: a backward switch
      onto an empty category parks the index at 0 (the sentinel is the
      length, 0); once at least two matching elements appear, ArrowDown and
      the key land on index 1 and element 0 is skipped. */
  lemma EmptyBackwardSwitchSkipsFirst(
    w: World, c: Category, doc: Document, tabindex: map<Id, string>, down: string)
    requires Valid(w) && w.engine.attached
    requires !IsTextEntry(Active(w))
    requires w.engine.current != Some(c) && w.engine.direction == Backward
    requires |Filter(w.doc, c)| == 0
    requires DecodeKey(down) == ArrowDown
    requires |Filter(doc, c)| >= 2 && !IsTextEntry(ActiveTag(doc, w.ctl.focused))
    ensures var w1 := HandleNavKey(w, c);
      var w2 := OnKeyDown(Step(w1, DocumentChanged(doc, tabindex)), down);
      var r := HandleNavKey(w2, c);
      && w1.engine.current == Some(c) && w1.engine.index == 0
      && r.engine.index == 1
      && r.ctl.focused == Some(Filter(doc, c)[1].id)
  {
    CategoryKeyLands(w, c);
    var w1 := HandleNavKey(w, c);
    assert w1.ctl == w.ctl && w1.engine.index == 0;
    MutationNeverMovesPointer(w1, doc, tabindex);
    var m := Step(w1, DocumentChanged(doc, tabindex));
    assert m.doc == doc && m.ctl.focused == KeepFocus(doc, w.ctl.focused);
    var w2 := OnKeyDown(m, down);
    assert w2.engine.current == Some(c) && w2.engine.index == 0;
    assert w2.engine.direction == Forward && w2.doc == doc;
    assert Active(w2) == ActiveTag(doc, w.ctl.focused);
    CategoryKeyLands(w2, c);
  }

  /** The scenario of keyboardNav.test.js:34-43: with at least two headers and nothing
      focused, H focuses the first header, H the second, and ArrowUp then H
      the first again. */
  lemma HeaderScenario(doc: Document, tabindex: map<Id, string>)
    requires DistinctIds(doc)
    requires |Filter(doc, Headers)| >= 2
    ensures var hs, w0 := Filter(doc, Headers), Init(doc, tabindex, None);
      var w1 := Step(w0, KeyDown("H"));
      var w2 := Step(w1, KeyDown("H"));
      var w4 := Step(Step(w2, KeyDown("ArrowUp")), KeyDown("H"));
      && w1.ctl.focused == Some(hs[0].id)
      && w2.ctl.focused == Some(hs[1].id) && w2.ctl.highlighted == {hs[1].id}
      && w4.ctl.focused == Some(hs[0].id) && w4.ctl.highlighted == {hs[0].id}
  {
    var hs, w0 := Filter(doc, Headers), Init(doc, tabindex, None);
    assert w0.ctl.focused == None && Active(w0) == "BODY";
    HeadersAndLinksAreNotTextEntry(doc, Headers);
    GuardOpenOnList(doc, Headers);
    HeaderKeyIsPress(w0);
    FirstForwardPress(w0, Headers);
    var w1 := HandleNavKey(w0, Headers);
    HeaderKeyIsPress(w1);
    NextForwardPress(w1, Headers);
    HeaderScenarioReversal(HandleNavKey(w1, Headers), hs);
  }

  /** The key "H" is a press of the headers key. */
  lemma HeaderKeyIsPress(w: World)
    requires Valid(w) && w.engine.attached
    ensures Step(w, KeyDown("H")) == HandleNavKey(w, Headers)
  {
    assert ToUpper("H") == "H";
  }

  lemma HeaderScenarioReversal(w2: World, hs: Document)
    requires Cycling(w2, Headers)
    requires hs == Filter(w2.doc, Headers)
    requires Landed(w2, hs, 1)
    ensures var w4 := Step(Step(w2, KeyDown("ArrowUp")), KeyDown("H"));
      w4.ctl.focused == Some(hs[0].id) && w4.ctl.highlighted == {hs[0].id}
  {
    assert ToUpper("ArrowUp") == "ARROWUP";
    assert !IsTextEntry(ActiveTag(w2.doc, Some(hs[1].id)));
    ReversalStepsBack(w2, Headers, "ArrowUp");
  }

  /** Navigation never reads the cached lists: two worlds that differ only
      in them react to every key alike, up to those lists, and to an
      unguarded category key identically. */
  lemma NavigationIgnoresCachedLists(w1: World, w2: World, key: string)
    requires Valid(w1) && w1.engine.attached
    requires w2 == w1.(engine := w1.engine.(lists := w2.engine.lists))
    ensures var r1, r2 := OnKeyDown(w1, key), OnKeyDown(w2, key);
      && r1.(engine := r1.engine.(lists := r2.engine.lists)) == r2
      && (DecodeKey(key).CategoryKey? && !IsTextEntry(Active(w1)) ==> r1 == r2)
  {
  }

  /** A mutation batch only refreshes the cache, and only on the leading
      edge: pointer, direction and highlight are untouched. */
  lemma MutationNeverMovesPointer(w: World, doc: Document, tabindex: map<Id, string>)
    requires Valid(w)
    ensures var r := Step(w, DocumentChanged(doc, tabindex));
      && r.doc == doc
      && r.ctl == w.ctl.(tabindex := tabindex, focused := KeepFocus(doc, w.ctl.focused))
      && r.engine.current == w.engine.current
      && r.engine.index == w.engine.index
      && r.engine.direction == w.engine.direction
      && (r.engine.lists == Scan(doc) || r.engine.lists == w.engine.lists)
      && (w.engine.attached && !w.engine.timer.pending ==> r.engine.lists == Scan(doc))
  {
  }

  /** Two mutation batches inside one debounce window: the second is not
      rescanned (there is no trailing rescan), so the cache lags behind the
      document; the next category key rescans and navigates the current
      document all the same. */
  lemma BurstLeavesCacheStaleButNavigationFresh(
    w: World, d1: Document, t1: map<Id, string>, d2: Document, t2: map<Id, string>, c: Category)
    requires Valid(w) && w.engine.attached && !w.engine.timer.pending
    ensures var w2 := Step(Step(w, DocumentChanged(d1, t1)), DocumentChanged(d2, t2));
      && w2.engine.lists == Scan(d1)
      && w2.engine.timer.pending
      && (!IsTextEntry(Active(w2)) ==> Step(w2, LetterKey(c)).engine.lists == Scan(d2))
  {
  }

  /** After teardown nothing is highlighted and, whatever happens next, the
      listeners stay detached and nothing becomes highlighted again. */
  lemma {:induction false} TeardownIsFinal(w: World, evs: seq<Event>)
    requires Valid(w)
    ensures var t := Step(w, TornDown);
      && t.ctl.highlighted == {}
      && !Run(t, evs).engine.attached
      && Run(t, evs).ctl.highlighted == {}
    decreases |evs|
  {
    if |evs| > 0 {
      var t := Step(w, TornDown);
      var t' := Step(t, evs[0]);
      assert Step(t', TornDown) == t' by {
        assert t'.ctl.prevEl.None?;
      }
      TeardownIsFinal(t', evs[1..]);
    }
  }

  /** After teardown, key presses change nothing at all. */
  lemma {:induction false} KeysAfterTeardownAreInert(w: World, keys: seq<string>)
    requires Valid(w)
    ensures var t := Step(w, TornDown);
      Run(t, seq(|keys|, i requires 0 <= i < |keys| => KeyDown(keys[i]))) == t
    decreases |keys|
  {
    var t := Step(w, TornDown);
    var evs := seq(|keys|, i requires 0 <= i < |keys| => KeyDown(keys[i]));
    if |keys| > 0 {
      assert Step(t, evs[0]) == t;
      KeysAfterTeardownAreInert(w, keys[1..]);
      assert evs[1..] == seq(|keys[1..]|, i requires 0 <= i < |keys[1..]| => KeyDown(keys[1..][i]));
    }
  }

  /** At every point of every run from initialisation, at most one node is
      highlighted, it is `prevEl`, and the index is at least -1. */
  lemma AlwaysAtMostOneHighlight(doc: Document, tabindex: map<Id, string>, focused: Option<Id>, evs: seq<Event>)
    ensures var r := Run(Init(doc, tabindex, focused), evs);
      && |r.ctl.highlighted| <= 1
      && (forall id :: id in r.ctl.highlighted ==> r.ctl.prevEl == Some(id))
      && r.engine.index >= -1
  {
    SingleHighlightAtMostOne(Run(Init(doc, tabindex, focused), evs).ctl);
  }
}

=== FILE: scanner.dfy ===
/**
  The scanner: classification of elements into the three navigable
  categories and the per-category lists a scan produces.

  `querySelectorAll` returns every matching node once, in document order, so
  each list is the document-order filter of the document by the category's
  predicate. The filter is defined from the back of the document, which is
  how a scan grows its list.
*/
module Scanner {
  import opened Dom

  /** The category keys: H (headers), L (links), M (landmarks). */
  datatype Category = Headers | Links | Landmarks

  const HeaderTags: set<string> := {"H1", "H2", "H3", "H4", "H5", "H6"}

  const LandmarkTags: set<string> :=
    {"NAV", "MAIN", "ASIDE", "FORM", "HEADER", "FOOTER", "SECTION"}

  const LandmarkRoles: set<string> :=
    {"banner", "navigation", "main", "complementary", "form", "contentinfo"}

  predicate IsHeader(e: Element) {
    e.tag in HeaderTags
  }

  predicate IsLink(e: Element) {
    e.tag == "A"
  }

  /** A sectioning tag, or an exact landmark `role` value. */
  predicate IsLandmark(e: Element) {
    e.tag in LandmarkTags || (e.role.Some? && e.role.value in LandmarkRoles)
  }

  predicate Matches(c: Category, e: Element) {
    match c
    case Headers => IsHeader(e)
    case Links => IsLink(e)
    case Landmarks => IsLandmark(e)
  }

  /** The elements of `doc` in category `c`, in document order. */
  function Filter(doc: Document, c: Category): (r: Document)
    ensures |r| <= |doc|
    decreases |doc|
  {
    if |doc| == 0 then []
    else
      var last := doc[|doc| - 1];
      Filter(doc[..|doc| - 1], c) + (if Matches(c, last) then [last] else [])
  }

  /** Every listed element is an element of the document in the category. */
  lemma {:induction false} FilterElements(doc: Document, c: Category)
    ensures forall i :: 0 <= i < |Filter(doc, c)| ==> Filter(doc, c)[i] in doc && Matches(c, Filter(doc, c)[i])
    decreases |doc|
  {
    if |doc| > 0 {
      FilterElements(doc[..|doc| - 1], c);
    }
  }

  /** The document positions a scan of category `c` selects, in increasing
      order: exactly the positions whose element is in the category. */
  ghost function Positions(doc: Document, c: Category): (pos: seq<nat>)
    ensures forall i :: 0 <= i < |pos| ==> pos[i] < |doc| && Matches(c, doc[pos[i]])
    ensures forall i, j :: 0 <= i < j < |pos| ==> pos[i] < pos[j]
    ensures forall k: nat :: k < |doc| && Matches(c, doc[k]) ==> k in pos
    decreases |doc|
  {
    if |doc| == 0 then []
    else
      var n := |doc| - 1;
      var front := Positions(doc[..n], c);
      assert forall i :: 0 <= i < |front| ==> doc[..n][front[i]] == doc[front[i]];
      assert forall k: nat :: k < n ==> doc[..n][k] == doc[k];
      front + (if Matches(c, doc[n]) then [n] else [])
  }

  /** A scan list is exactly the document-order subsequence of the elements
      in its category: its i-th element is the element at the i-th selected
      position. */
  lemma {:induction false} FilterIsDocumentOrderSelection(doc: Document, c: Category)
    ensures |Filter(doc, c)| == |Positions(doc, c)|
    ensures forall i :: 0 <= i < |Positions(doc, c)| ==> Filter(doc, c)[i] == doc[Positions(doc, c)[i]]
    decreases |doc|
  {
    if |doc| > 0 {
      var n := |doc| - 1;
      FilterIsDocumentOrderSelection(doc[..n], c);
      var ff, pf := Filter(doc[..n], c), Positions(doc[..n], c);
      forall i | 0 <= i < |pf| ensures pf[i] < |doc| && ff[i] == doc[pf[i]] {
        assert doc[..n][pf[i]] == doc[pf[i]];
      }
      var tailF: Document := if Matches(c, doc[n]) then [doc[n]] else [];
      var tailP: seq<nat> := if Matches(c, doc[n]) then [n] else [];
      AppendSelected(doc, ff, pf, tailF, tailP);
      assert Filter(doc, c) == ff + tailF;
      assert Positions(doc, c) == pf + tailP;
    }
  }

  /** Two selections from the same document, one after the other, together
      select the concatenation of what each selects. */
  lemma AppendSelected(doc: Document, ff: Document, pf: seq<nat>, tailF: Document, tailP: seq<nat>)
    requires |ff| == |pf| && |tailF| == |tailP|
    requires forall i :: 0 <= i < |pf| ==> pf[i] < |doc| && ff[i] == doc[pf[i]]
    requires forall i :: 0 <= i < |tailP| ==> tailP[i] < |doc| && tailF[i] == doc[tailP[i]]
    ensures forall i :: 0 <= i < |pf + tailP| ==> (pf + tailP)[i] < |doc| && (ff + tailF)[i] == doc[(pf + tailP)[i]]
  {
    forall i | 0 <= i < |pf + tailP| ensures (pf + tailP)[i] < |doc| && (ff + tailF)[i] == doc[(pf + tailP)[i]] {
      if i >= |pf| {
        assert (pf + tailP)[i] == tailP[i - |pf|];
        assert (ff + tailF)[i] == tailF[i - |pf|];
      }
    }
  }

  /** An element is listed if and only if it is in the document and in the
      category. */
  lemma {:induction false} FilterMembership(doc: Document, c: Category, e: Element)
    ensures e in Filter(doc, c) <==> e in doc && Matches(c, e)
    decreases |doc|
  {
    if |doc| > 0 {
      var n := |doc| - 1;
      FilterMembership(doc[..n], c, e);
      assert doc == doc[..n] + [doc[n]];
    }
  }

  /** Every node is listed at most once: a well-formed document gives lists
      without repeated identities, so an element that is a landmark both by
      tag and by role appears once. */
  lemma {:induction false} FilterDistinct(doc: Document, c: Category)
    requires DistinctIds(doc)
    ensures DistinctIds(Filter(doc, c))
    decreases |doc|
  {
    if |doc| > 0 {
      var n := |doc| - 1;
      var front := doc[..n];
      assert DistinctIds(front) by {
        forall i, j | 0 <= i < j < |front| ensures front[i].id != front[j].id {
          assert front[i] == doc[i] && front[j] == doc[j];
        }
      }
      FilterDistinct(front, c);
      FilterElements(front, c);
      var r := Filter(front, c);
      forall i | 0 <= i < |r| ensures r[i].id != doc[n].id {
        assert r[i] in front;
        var k :| 0 <= k < |front| && front[k] == r[i];
        assert front[k] == doc[k];
      }
    }
  }

  /** The three lists one call of `scanElements` produces. */
  datatype Lists = Lists(headers: Document, links: Document, landmarks: Document) {
    function Of(c: Category): Document {
      match c
      case Headers => headers
      case Links => links
      case Landmarks => landmarks
    }
  }

  function Scan(doc: Document): (r: Lists)
    ensures forall c: Category :: r.Of(c) == Filter(doc, c)
  {
    Lists(Filter(doc, Headers), Filter(doc, Links), Filter(doc, Landmarks))
  }

  /** `getList`: the list of a category; no category selects nothing. */
  function GetList(lists: Lists, t: Option<Category>): Document {
    match t
    case Some(c) => lists.Of(c)
    case None => []
  }

  /** What `getList` returns after a scan: precisely the document's elements
      of the requested category, and nothing for an unknown one. */
  lemma GetListOfScan(doc: Document, t: Option<Category>, e: Element)
    ensures e in GetList(Scan(doc), t) <==> t.Some? && e in doc && Matches(t.value, e)
  {
    if t.Some? {
      FilterMembership(doc, t.value, e);
    }
  }

  /** Headers and links are never text-entry controls; a landmark can be one,
      through its `role` attribute. */
  lemma HeadersAndLinksAreNotTextEntry(doc: Document, c: Category)
    requires c != Landmarks
    ensures forall i :: 0 <= i < |Filter(doc, c)| ==> !IsTextEntry(Filter(doc, c)[i].tag)
  {
    FilterElements(doc, c);
  }

  lemma TextEntryLandmarkExists()
    ensures var e := Element(0, "INPUT", Some("navigation")); IsLandmark(e) && IsTextEntry(e.tag)
  {
  }
}

=== FILE: wrap.dfy ===
/**
  The wrap-around index arithmetic of `movePointer`.

  JavaScript's `%` truncates toward zero, so its remainder takes the sign of
  the dividend; Dafny's `%` is Euclidean. The engine computes
  `(currentIndex + direction + length) % length`; this module models the
  JavaScript operator and shows that, for every index the engine can hold,
  the two agree.
*/
module Wrap {

  /** JavaScript `a % b` for a positive divisor, on integers: take `b` away
      from a dividend of at least `b`, or add it to one of at most `-b`,
      until the dividend lies strictly between `-b` and `b`. The remainder so
      left has the dividend's sign; a result of `-0` is the integer 0. */
  function JsRem(a: int, b: int): (r: int)
    requires b > 0
    ensures a >= 0 ==> 0 <= r < b
    ensures a < 0 ==> -b < r <= 0
    decreases if a < 0 then -a else a
  {
    if a >= b then JsRem(a - b, b)
    else if a <= -b then JsRem(a + b, b)
    else a
  }

  /** On a non-negative dividend JavaScript's remainder is Dafny's. */
  lemma {:induction false} JsRemMatchesEuclid(a: int, b: int)
    requires b > 0 && a >= 0
    ensures JsRem(a, b) == a % b
    decreases a
  {
    if a >= b {
      JsRemMatchesEuclid(a - b, b);
      ShiftRem(a - b, b);
    } else {
      RemUnique(a, b, 0, a);
    }
  }

  /** Truncation is symmetric: negating the dividend negates the remainder. */
  lemma {:induction false} JsRemOdd(a: int, b: int)
    requires b > 0
    ensures JsRem(-a, b) == -JsRem(a, b)
    decreases if a < 0 then -a else a
  {
    if a >= b {
      JsRemOdd(a - b, b);
    } else if a <= -b {
      JsRemOdd(a + b, b);
    }
  }

  /** Adding the divisor keeps the Euclidean remainder. */
  lemma ShiftRem(x: int, b: int)
    requires b > 0 && x >= 0
    ensures (x + b) % b == x % b
  {
    RemUnique(x + b, b, x / b + 1, x % b);
  }

  /** Euclidean division is unique: a quotient and an in-range remainder
      that recompose the dividend are Dafny's. */
  lemma RemUnique(x: int, b: int, q: int, m: int)
    requires b > 0 && 0 <= m < b
    requires x == b * q + m
    ensures x % b == m
  {
    var q', m' := x / b, x % b;
    assert b * q + m == b * q' + m';
    assert b * (q - q') == m' - m;
    if q > q' {
      MulAtLeast(b, q - q');
      assert false;
    } else if q < q' {
      MulAtLeast(b, q' - q);
      assert false;
    }
  }

  lemma {:induction false} MulAtLeast(b: int, k: int)
    requires b > 0 && k >= 1
    ensures b * k >= b
    decreases k
  {
    if k > 1 {
      MulAtLeast(b, k - 1);
      assert b * k == b * (k - 1) + b;
    }
  }

  /** The new index `(i + d + len) % len` of `movePointer`, where the index
      is at least the forward sentinel -1 and `d` is the direction. */
  function MoveIndex(i: int, d: int, len: nat): (r: int)
    requires len > 0
    requires i >= -1
    requires d == 1 || d == -1
    ensures 0 <= r < len
    ensures 0 <= i + d < len ==> r == i + d
    ensures i + d == len ==> r == 0
    ensures i == 0 && d == -1 ==> r == len - 1
  {
    JsRemUpToTwice(i + d + len, len);
    JsRem(i + d + len, len)
  }

  /** The remainder of a dividend between 0 and twice the divisor. */
  lemma JsRemUpToTwice(a: int, b: int)
    requires b > 0
    ensures 0 <= a <= 2 * b ==> JsRem(a, b) == if a < b then a else if a < 2 * b then a - b else 0
  {
    if 0 <= a <= 2 * b && a >= b {
      assert JsRem(a, b) == JsRem(a - b, b);
      if a - b >= b {
        assert JsRem(a - b, b) == JsRem(a - b - b, b);
      }
    }
  }

  /** The dividend of `movePointer` is negative in one case only: a
      one-element list, the forward sentinel -1 and a backward step. JavaScript
      then yields `-0`, which indexes element 0, as Dafny's 0 does. So for
      every index the engine can hold the JavaScript and the Dafny operator
      agree. */
  lemma MoveIndexIsEuclidean(i: int, d: int, len: nat)
    requires len > 0
    requires i >= -1
    requires d == 1 || d == -1
    ensures i + d + len < 0 ==> i == -1 && d == -1 && len == 1
    ensures MoveIndex(i, d, len) == (i + d + len) % len
  {
    if i + d + len < 0 {
      assert JsRem(-1, 1) == JsRem(0, 1) == 0;
    } else {
      JsRemMatchesEuclid(i + d + len, len);
    }
  }

  /** One example that the agreement needs the bound -1: from index -4 a
      backward step in a two-element list gives -1 in JavaScript against 1
      in Dafny. */
  lemma TruncationDiffersBelowSentinel()
    ensures JsRem(-4 - 1 + 2, 2) == -1 && (-4 - 1 + 2) % 2 == 1
  {
  }

  /** A backward step from the forward sentinel: with a list of two or more
      it lands on the second-to-last index, not the last. */
  lemma BackwardFromForwardSentinel(len: nat)
    requires len > 0
    ensures MoveIndex(-1, -1, len) == if len == 1 then 0 else len - 2
  {
    if len >= 2 {
      assert JsRem(len - 2, len) == len - 2;
    } else {
      assert JsRem(-1, 1) == JsRem(0, 1) == 0;
    }
  }
}
